=== FILE: README.md ===
# Morisawa Fonts web font client: a Dafny model of its core

This project models the three pieces of logic in the TypeScript client SDK of
the Morisawa Fonts web font API that do more than hand a request to the HTTP
library:

- **`APIError`** (`src/error.ts`): the message of the error raised for a failed
  response is the transport's message, extended, for a non-empty body, by
  `": "` and either the truthy `message` field of a JSON body or the raw body
  text.
- **The request client** (`src/client.ts`): per-call options override the
  instance's key by key, `#setupOptions` checks the API token and fills in
  defaults (falsy `baseURL`/`fetch` are replaced, `timeout`/`retry` only when
  `undefined`), one leading `/` is stripped from the path, the
  `authorization` and `user-agent` headers are built, and only an HTTP error is
  turned into an `APIError`.
- **The cursor pager** (`src/pager.ts`): a state of "more pages may exist"
  plus the pagination input (`limit`, `cursor` and any endpoint filters), stepped by `getNextPage`
  against a server, and flattened into `{value, meta}` items by the iterator.

Modules: `Common` (`common.dfy`: option, result, and `Field`, a property of a
JavaScript object that is absent, explicitly `undefined`, or defined),
`Errors` (`error.dfy`), `Requests` (`client.dfy`) and `Pagination`
(`pager.dfy`). `getList` is modelled in `Pagination` because `client.ts` and
`pager.ts` import each other, which Dafny modules cannot.

Foreign behaviour is a parameter: the HTTP transport is a function from the
prepared request to a decoded body or a thrown error; `JSON.parse` is a
function from the body text to the four outcomes `APIError` distinguishes
(the parse or the rendering of `message` throws, `null`, a value with a
truthy `message` that renders, anything else); the
server a pager talks to is a function from the pagination input to a page or
an error (`Pagination.ClientServer` builds it from `client.get`); the
browser check is two booleans; the package version is a string.

The model follows three details of the code:
the JSON `message` field is used only when it is truthy (an empty string,
`0` or `false` falls back to the raw text), a `null` JSON body also falls back
to the raw text, and an explicit `undefined` in the per-call options hides
the instance's value (so the default applies), because that is what object
spread does.

## Model

| member | source | states |
|---|---|---|
| Errors.ComposeMessage | src/error.ts:13-25 | An empty body leaves the transport's message as it is; a JSON body with a truthy `message` appends `": "` and that message; any other body appends `": "` and the raw text; the transport's message is always a prefix. |
| Errors.NewApiError | src/error.ts:12-31 | The error's `status` is the response's status, its `name` is `"APIError"`, its cause is the transport error, and its message starts with the transport's message. |
| Errors.MessageUnchangedIffEmptyText | src/error.ts:13-25 | The message equals the transport's message if and only if the body text is empty. |
| Errors.DetailRecoverable | src/error.ts:14-24 | For a non-empty body the message splits into the transport's message, `": "`, and the detail; when the body is not JSON with a truthy `message`, that detail is the body text itself. |
| Errors.RawTextInjective | src/error.ts:19-24 | Two different bodies that are not JSON with a truthy `message` always give different messages. |
| Errors.NullBodyAppendsText | src/error.ts:15-24 | A body that is not JSON, and a body that parses to `null`, both give the transport's message plus `": "` plus the raw text. |
| Requests.NewClient | src/client.ts:51-58 | Missing options become `{}`; the client has a user agent starting with `morisawafonts-webfont-ts/` exactly when it is not both inside a window and given a navigator user agent. |
| Requests.StripLeadingSlash | src/client.ts:110-112 | A path that starts with `/` is that `/` followed by the result; any other path is returned unchanged. |
| Requests.StripUndoesOneSlash | src/client.ts:110-112 | Stripping `"/" + q` gives back `q` for every `q`, including one that itself starts with `/`. |
| Requests.StripRemovesOnlyOne | src/client.ts:110-112 | `"//x"` becomes `"/x"`, `"/x"` becomes `"x"`, `"x"` stays `"x"`. |
| Requests.MergeOptions | src/client.ts:114-117 | Without per-call options the instance's options are used; otherwise each key takes the per-call property when that key is present (even as `undefined`) and the instance's otherwise. |
| Requests.MergeIdentity | src/client.ts:114-117 | Merging with nothing or with `{}` leaves the instance options unchanged, and merging onto `{}` gives the overrides. |
| Requests.MergeAssociative | src/client.ts:114-117 | Spreading `b` then `c` onto `a` equals spreading the spread of `c` onto `b` onto `a`. |
| Requests.SetupOptions | src/client.ts:147-159 | Fails with "You must provide an API token." exactly when the token is missing, `undefined` or empty; otherwise keeps the token, replaces a falsy base URL by the default URL, defaults `timeout` to 30000 and `retry` to 2 only when undefined, and uses the ambient fetch only when none is given. |
| Requests.SetupOptionsIdempotent | src/client.ts:152-158 | Resolving already-resolved options gives the same options. |
| Requests.FalsyValuesKeptOrReplaced | src/client.ts:154-156 | An empty base URL is replaced by the default, while a `false` timeout and a `0` retry limit are kept. |
| Requests.ExplicitUndefinedFallsBackToDefault | src/client.ts:114-117 | An explicit `timeout: undefined` per call hides the instance's 5000 and yields the 30000 default; an absent key keeps 5000. |
| Requests.BuildHeaders | src/client.ts:119-124 | Exactly one or two headers: first `authorization` with exactly `"Bearer "` plus the token, then `user-agent` carrying the client's user agent exactly when that is a non-empty string. |
| Requests.Prepare | src/client.ts:109-138 | Fails with the missing-token error exactly when the merged token is falsy; otherwise the request carries the method and payload unchanged, the stripped path, exactly the headers built from the resolved token and the client's user agent, and the resolved base URL, timeout, retry limit and fetch. |
| Requests.Request | src/client.ts:101-145 | The transport is called exactly when preparation succeeds, with the prepared request; a delivered body is the result, an HTTP error becomes an `APIError` built from it and its body text, and every other thrown error is raised unchanged. |
| Requests.Get | src/client.ts:60-68 | The request sent is exactly the one `#request` prepares for a GET with the given search parameters: stripped path, `Bearer` authorization and user-agent headers, resolved base URL, timeout, retry limit and fetch; it is sent exactly when the merged token is truthy; without it the call fails with the configuration error; a delivered body is the result; an HTTP error becomes the `APIError` built from it and its body text, and any other thrown error is raised unchanged. |
| Requests.Post | src/client.ts:70-78 | The request sent is exactly the one `#request` prepares for a POST with the given JSON body: stripped path, `Bearer` authorization and user-agent headers, resolved base URL, timeout, retry limit and fetch; it is sent exactly when the merged token is truthy; without it the call fails with the configuration error; a delivered body is the result; an HTTP error becomes the `APIError` built from it and its body text, and any other thrown error is raised unchanged. |
| Requests.Delete | src/client.ts:80-86 | It sends exactly the request `#request` prepares for a DELETE with the given JSON body; a request goes out exactly when the merged token is truthy, and without one the call fails with the missing-token error; the call succeeds exactly when the transport delivered, and otherwise fails with the request's own error. |
| Requests.DeleteIsPostWithOtherMethod | src/client.ts:70-86 | A DELETE goes out exactly when the POST with the same body would, as the POST's request with only the method changed; when neither goes out both fail with the same error. |
| Requests.GetAndPostShareTheRequest | src/client.ts:60-78 | For the same client, path and options, `get` and `post` both reach the transport or neither does, and their requests agree on everything but the method and the payload. |
| Requests.MissingTokenSendsNothing | src/client.ts:114-150 | Without a usable token the call fails with the configuration error and hands nothing to the transport, whatever the transport would do. |
| Requests.OnlyHttpErrorsBecomeApiErrors | src/client.ts:139-144 | A call fails with an `APIError` if and only if the transport threw an HTTP error, and the error's status is that response's status. |
| Requests.UserAgentFollowsEnvironment | src/client.ts:122-124 | A request prepared by a client has a `user-agent` header exactly when the client was built outside a browser. |
| Pagination.NewPager | src/pager.ts:55-66 | A new pager reports a next page; a missing input becomes `{}`; the client, path and per-call options are the given ones. |
| Pagination.HasNextPage | src/pager.ts:71-73 | Reports the flag itself; it has no other effect, and the flag is what `getNextPage` refuses on. |
| Pagination.NextInput | src/pager.ts:89-92 | After a page with a next page the cursor is its `next_cursor`; after the last page the input is unchanged; `limit` and the endpoint filters never change. |
| Pagination.GetNextPage | src/pager.ts:78-95 | With the flag false it fails with "no more pages", sends nothing and changes nothing; otherwise it asks the server at the current input, a failed fetch changes nothing, and a fetched page is returned unmodified with the flag set to its `has_next` and the cursor moved on when there is a next page. |
| Pagination.ItemsOf | src/pager.ts:103-105 | A page yields one item per result element, in order, each paired with the page's metadata. |
| Pagination.FlattenLength | src/pager.ts:100-107 | The items of a run of pages are exactly as many as the pages' results hold. |
| Pagination.FlattenAppend | src/pager.ts:100-107 | The items of two runs of pages are the first run's items followed by the second's. |
| Pagination.FlattenAt | src/pager.ts:103-105 | Element `i` of page `k` is the item at the page's offset plus `i`, paired with page `k`'s own metadata. |
| Pagination.Iterate | src/pager.ts:100-107 | The items are the flattened fetched pages; the first request uses the initial input, each later one the previous page's `next_cursor` with the same `limit` and filters; each page is the server's answer to its request; every page but the last announced a next page; the iteration finishes exactly when the flag ends false, with a last page that has no next page; a failed fetch ends it with the server's error after the items already yielded and leaves the pager on the failing request, so a new iteration retries that page; otherwise the pager ends on the input that follows the last page; it stops for want of budget only after fetching as many pages as the budget allows. |
| Pagination.IterateFetches | src/pager.ts:100-106 | When the pager still has a next page and the server answers its input with a page, the iteration yields that page's items first, records that input as its first request, and continues from the pager moved to the page's `next_cursor`. |
| Pagination.ExhaustedIsAbsorbing | src/pager.ts:79-81 | From a pager whose flag is false, any number of `getNextPage` calls leaves it unchanged. |
| Pagination.FlagMonotone | src/pager.ts:79-89 | Once the flag is false after some number of calls, it is false after every larger number of calls. |
| Pagination.FinishedThenGetNextPageFails | src/pager.ts:79-81 | After a finished iteration a further `getNextPage` fails with "no more pages" and sends nothing. |
| Pagination.GetList | src/client.ts:88-99 | The new pager reports a next page, starts at the given input or `{}`, and is bound to the given client, path and per-call options; no request is involved. |
| Pagination.QueryOf | src/pager.ts:83-87 | The search parameters are the input's filters plus `limit` and `cursor` exactly when the input sets them, with their values, and nothing else. |
| Pagination.ClientServer | src/pager.ts:83-87 | The pager's fetch is `client.get` on its path with the input as search parameters and its per-call options: without a usable token every input fails with the configuration error, and a delivered page is returned as it came. |
| Pagination.NextRequestCarriesCursor | src/pager.ts:83-92 | Through the client, the request after a page with a next page goes to the stripped path with `cursor` set to that page's `next_cursor` and `limit` present iff it was set. |
| Pagination.ThreePagesStepByStep | src/pager.test.ts:66-101 | On the three-page listing the pages arrive in order, the flag is true after pages 1 and 2 and false after page 3, and a fourth call fails with "No more pages available." without a request. |
| Pagination.ThreePagesYieldNineItems | src/pager.test.ts:122-140 | Iterating the three-page listing sends `{}`, then cursor `cursor1`, then `cursor2`, yields the values 1 to 9 in order, items 1-3 paired with `next_cursor` `cursor1`, items 4-6 with `cursor2`, items 7-9 with no next page, and ends with the flag false. |
| Pagination.ThreePagesRun | src/pager.test.ts:122-140 | The whole iteration over the three-page listing: the three pages' items in order, the three pages, the requests `{}`, `cursor1`, `cursor2`, and a finished pager holding cursor `cursor2` with the flag false. |
| Pagination.EmptyListingYieldsNothing | src/pager.test.ts:142-152 | A listing whose only page is empty and last yields no item and leaves the flag false. |
| Pagination.SharedGetNextPage | src/pager.ts:58-92 | The step as written: the same page and flag as the value step, with the new cursor stored into the caller's input object and every other object left alone; the pager keeps its client, path, per-call options and input reference, and only its flag changes. |
| Pagination.SharedInputSkipsFirstPage | src/pager.ts:91 | Two listings built from the same input object: after the first reads a page, the object holds `cursor1` and the second listing's first page is page 2. |
| Pagination.CopiedInputKeepsFirstPage | src/pager.ts:58-65 | With the pager owning its input, the second listing built from the same input still starts at page 1 while the first has moved on to `cursor1`. |

## Left out

- The HTTP exchange itself (the `ky` library): URL joining of base URL and path, retry counting and backoff, timeouts, response body decoding. The transport is a parameter that returns a decoded body or a thrown error; the retry limit and timeout are only passed on.
- Reading the body text of an HTTP error is folded into the transport's thrown error; a failure while reading it is not modelled.
- `JSON.parse` and the string rendering of a truthy `message` value are a parameter; the JSON grammar is not modelled.
- The platform `Headers` class: its normalisation and validation of header values (trimming, refusing control characters) is not modelled.
- Environment sniffing of `globalThis.window` and `navigator.userAgent`: two boolean parameters. The package version: a string parameter.
- The default `fetch` is the constant `AmbientFetch`; a caller-supplied fetch function is named by a number.
- JavaScript numbers (the timeout in milliseconds, the retry limit, `Pager.Input`'s `limit`, numeric filter values) are unbounded integers; they are only passed on, so no floating-point behaviour arises.
- Asynchrony: `await` and the async generator are modelled as sequential function calls.
- Pagination.Iterate: the number of pages fetched is bounded by a `fuel` argument and an iteration that runs out of it ends with `OutOfFuel`; the source keeps fetching for as long as the server announces a next page.
- `Pager.Input` is `limit`, `cursor` and a map of filter properties that endpoints add (`from`, `to`, `domain`); filter values are strings, integers or booleans, and a filter named `limit` or `cursor` is not modelled.
- The client keeps the caller's options object (src/client.ts:52) and the pager keeps the caller's per-call options object (src/pager.ts:64) by reference, so a caller who changes those objects later changes later requests; the model copies them as values when the client or pager is built.
- The resource wrappers (`src/resources/`), `src/resource.ts` and `src/index.ts`: one-line path mappings and object wiring.

## Findings

| source | as written | input that shows it | evidently intended | confidence | as-written member | corrected member |
|---|---|---|---|---|---|---|
| src/pager.ts:63 | The pager stores the caller's input object itself and `getNextPage` writes the cursor into it (line 91), although the parameter is typed `Readonly<Pager.Input>`. | `input = {limit: 10}`; build a listing from `input` and read one page; build a second listing from the same `input`: its first request carries `cursor1` and it starts at page 2. | The caller's input is left alone and every listing built from it starts at the first page. | medium; not executed | Pagination.SharedInputSkipsFirstPage | Pagination.CopiedInputKeepsFirstPage |

=== FILE: client.dfy ===
/**
 The request client: it resolves the effective options of a call, checks the
 API token, builds the headers and the request handed to the HTTP transport,
 and turns the transport's HTTP errors into `APIError`s.
 */
module Requests {
  import opened Common
  import Errors

  const DefaultBaseUrl := "https://api.morisawafonts.com/webfont/v1"
  const DefaultTimeoutMillis := 30000
  const DefaultRetryLimit := 2
  const MissingTokenMessage := "You must provide an API token."
  const UserAgentPrefix := "morisawafonts-webfont-ts/"
  const AuthorizationHeader := "authorization"
  const UserAgentHeader := "user-agent"
  const BearerPrefix := "Bearer "

  /** A request timeout in milliseconds, or `false` to disable it. */
  datatype Timeout = Millis(ms: int) | Disabled

  /** The fetch implementation: the platform's own, or one supplied by the caller (named by an id). */
  datatype FetchImpl = AmbientFetch | CustomFetch(id: nat)

  /** `ClientOptions`: every property optional. `fetch` names a caller-supplied fetch function. */
  datatype ClientOptions = ClientOptions(
    apiToken: Field<string>,
    baseUrl: Field<string>,
    timeout: Field<Timeout>,
    retry: Field<int>,
    fetch: Field<nat>)

  /** `{}` */
  const NoOptions := ClientOptions(Absent, Absent, Absent, Absent, Absent)

  /** `Required<ClientOptions>`: the options after defaulting and the token check. */
  datatype ResolvedOptions = ResolvedOptions(
    apiToken: string,
    baseUrl: string,
    timeout: Timeout,
    retry: int,
    fetch: FetchImpl)

  /** A client instance: its options and the user agent it decided on when it was built. */
  datatype Client = Client(options: ClientOptions, userAgent: Option<string>)

  datatype Header = Header(name: string, value: string)

  datatype Method = GET | POST | DELETE

  /** A search parameter value. */
  datatype Param = Str(s: string) | Num(n: int) | Bool(b: bool)

  /**
   What a call sends besides the headers: query parameters for GET, a JSON
   body (already serialised) for POST and DELETE.
   */
  datatype Payload = SearchParams(params: Option<map<string, Param>>) | JsonBody(json: Option<string>)

  /** Everything the client hands to the HTTP transport for one call. */
  datatype Prepared = Prepared(
    httpMethod: Method,
    path: string,
    payload: Payload,
    headers: seq<Header>,
    prefixUrl: string,
    timeout: Timeout,
    retryLimit: int,
    fetch: FetchImpl)

  /**
   What the transport can throw: an HTTP error for a non-success response
   (with the response body text it carries), a timeout, or anything else
   (network failures, body decoding failures).
   */
  datatype Thrown =
    | HttpThrown(error: Errors.HttpError, text: string)
    | TimeoutThrown(message: string)
    | OtherThrown(name: string, message: string)

  /** The transport's answer to a prepared request: a decoded body or a thrown error. */
  datatype Outcome<B> = Delivered(body: B) | Threw(thrown: Thrown)

  /** What a client call can fail with. */
  datatype ClientError =
    | ConfigError(message: string)
    | Api(error: Errors.ApiError)
    | Rethrown(thrown: Thrown)

  /** The result of one client call together with the request sent to the transport, if any. */
  datatype Call<B> = Call(result: Result<B, ClientError>, sent: Option<Prepared>)

  /**
   The client constructor. `hasWindow` and `hasNavigatorUserAgent` stand for
   the truthiness of the host's `window` and `navigator.userAgent` globals;
   `version` is the package version.
   */
  function NewClient(options: Option<ClientOptions>, hasWindow: bool, hasNavigatorUserAgent: bool,
                     version: string): (c: Client)
    ensures c.options == options.GetOr(NoOptions)
    ensures c.userAgent.Some? <==> !(hasWindow && hasNavigatorUserAgent)
    ensures c.userAgent.Some? ==> UserAgentPrefix <= c.userAgent.value
  {
    Client(options.GetOr(NoOptions),
           if !hasWindow || !hasNavigatorUserAgent then Some(UserAgentPrefix + version) else None)
  }

  /** The path with one leading `/` removed, if it has one. */
  function StripLeadingSlash(path: string): (r: string)
    ensures |path| > 0 && path[0] == '/' ==> "/" + r == path
    ensures !(|path| > 0 && path[0] == '/') ==> r == path
  {
    if |path| > 0 && path[0] == '/' then path[1..] else path
  }

  /** Stripping undoes prefixing one `/`, whatever the path starts with. */
  lemma StripUndoesOneSlash(q: string)
    ensures StripLeadingSlash("/" + q) == q
  {
  }

  /** Exactly one `/` is removed: `//x` becomes `/x`, not `x`. */
  lemma StripRemovesOnlyOne()
    ensures StripLeadingSlash("//x") == "/x"
    ensures StripLeadingSlash("/x") == "x"
    ensures StripLeadingSlash("x") == "x"
  {
  }

  /** `{...instance, ...request}`: the per-call options override the instance's key by key. */
  function MergeOptions(instance: ClientOptions, request: Option<ClientOptions>): (m: ClientOptions)
    ensures request.None? ==> m == instance
    ensures request.Some? ==>
      && m.apiToken == Spread(instance.apiToken, request.value.apiToken)
      && m.baseUrl == Spread(instance.baseUrl, request.value.baseUrl)
      && m.timeout == Spread(instance.timeout, request.value.timeout)
      && m.retry == Spread(instance.retry, request.value.retry)
      && m.fetch == Spread(instance.fetch, request.value.fetch)
  {
    match request
    case None => instance
    case Some(o) =>
      ClientOptions(
        Spread(instance.apiToken, o.apiToken),
        Spread(instance.baseUrl, o.baseUrl),
        Spread(instance.timeout, o.timeout),
        Spread(instance.retry, o.retry),
        Spread(instance.fetch, o.fetch))
  }

  /** Merging with no overrides, or with `{}`, leaves the instance options as they are. */
  lemma MergeIdentity(instance: ClientOptions)
    ensures MergeOptions(instance, None) == instance
    ensures MergeOptions(instance, Some(NoOptions)) == instance
    ensures MergeOptions(NoOptions, Some(instance)) == instance
  {
  }

  /** Merging twice is merging once with the merged overrides: spread is associative. */
  lemma MergeAssociative(a: ClientOptions, b: ClientOptions, c: ClientOptions)
    ensures MergeOptions(MergeOptions(a, Some(b)), Some(c)) == MergeOptions(a, Some(MergeOptions(b, Some(c))))
  {
  }

  /**
   `#setupOptions`: the token must be a non-empty string; `baseURL` and
   `fetch` fall back when falsy, `timeout` and `retry` only when undefined.
   */
  function SetupOptions(o: ClientOptions): (r: Result<ResolvedOptions, ClientError>)
    ensures r.Failure? <==> !TruthyString(o.apiToken)
    ensures r.Failure? ==> r.error == ConfigError(MissingTokenMessage)
    ensures r.Success? ==> r.value.apiToken == o.apiToken.value && r.value.apiToken != ""
    ensures r.Success? ==> (r.value.baseUrl == if TruthyString(o.baseUrl) then o.baseUrl.value else DefaultBaseUrl)
    ensures r.Success? ==> r.value.timeout == o.timeout.Read().GetOr(Millis(DefaultTimeoutMillis))
    ensures r.Success? ==> r.value.retry == o.retry.Read().GetOr(DefaultRetryLimit)
    ensures r.Success? ==> (r.value.fetch == if o.fetch.Defined? then CustomFetch(o.fetch.value) else AmbientFetch)
  {
    if !TruthyString(o.apiToken) then
      Failure(ConfigError(MissingTokenMessage))
    else
      Success(ResolvedOptions(
        o.apiToken.value,
        if TruthyString(o.baseUrl) then o.baseUrl.value else DefaultBaseUrl,
        if o.timeout.Defined? then o.timeout.value else Millis(DefaultTimeoutMillis),
        if o.retry.Defined? then o.retry.value else DefaultRetryLimit,
        if o.fetch.Defined? then CustomFetch(o.fetch.value) else AmbientFetch))
  }

  /** Resolved options written back as a complete options object. */
  function AsOptions(r: ResolvedOptions): ClientOptions {
    ClientOptions(
      Defined(r.apiToken),
      Defined(r.baseUrl),
      Defined(r.timeout),
      Defined(r.retry),
      match r.fetch case CustomFetch(id) => Defined(id) case AmbientFetch => Absent)
  }

  /** Resolving is idempotent: resolving already-resolved options changes nothing. */
  lemma SetupOptionsIdempotent(o: ClientOptions)
    requires SetupOptions(o).Success?
    ensures SetupOptions(AsOptions(SetupOptions(o).value)) == SetupOptions(o)
  {
  }

  /**
   The two defaulting rules differ: an explicit `false` timeout and a `0`
   retry limit survive, while an empty base URL is replaced by the default.
   */
  lemma FalsyValuesKeptOrReplaced(token: string)
    requires token != ""
    ensures var r := SetupOptions(ClientOptions(Defined(token), Defined(""), Defined(Disabled), Defined(0), Absent));
      && r.Success?
      && r.value.baseUrl == DefaultBaseUrl
      && r.value.timeout == Disabled
      && r.value.retry == 0
      && r.value.fetch == AmbientFetch
  {
  }

  /**
   An explicit `undefined` in the per-call options hides the instance's
   value, so the call falls back to the default, while an absent key lets
   the instance's value through.
   */
  lemma ExplicitUndefinedFallsBackToDefault(instance: ClientOptions)
    requires TruthyString(instance.apiToken) && instance.timeout == Defined(Millis(5000))
    ensures SetupOptions(MergeOptions(instance, Some(NoOptions.(timeout := Undefined)))).value.timeout
              == Millis(DefaultTimeoutMillis)
    ensures SetupOptions(MergeOptions(instance, Some(NoOptions))).value.timeout == Millis(5000)
  {
  }

  /** The headers of a call: the bearer token, and the user agent when the client has one. */
  function BuildHeaders(token: string, userAgent: Option<string>): (hs: seq<Header>)
    ensures |hs| == if userAgent.Some? && userAgent.value != "" then 2 else 1
    ensures hs[0] == Header(AuthorizationHeader, BearerPrefix + token)
    ensures |hs| == 2 ==> hs[1] == Header(UserAgentHeader, userAgent.value)
    ensures HeaderValue(hs, AuthorizationHeader) == Some(BearerPrefix + token)
    ensures HeaderValue(hs, UserAgentHeader).Some? <==> userAgent.Some? && userAgent.value != ""
    ensures HeaderValue(hs, UserAgentHeader).Some? ==> HeaderValue(hs, UserAgentHeader) == userAgent
  {
    [Header(AuthorizationHeader, BearerPrefix + token)]
      + if userAgent.Some? && userAgent.value != "" then [Header(UserAgentHeader, userAgent.value)] else []
  }

  /** The value of the first header called `name`. */
  function HeaderValue(hs: seq<Header>, name: string): Option<string> {
    if |hs| == 0 then None
    else if hs[0].name == name then Some(hs[0].value)
    else HeaderValue(hs[1..], name)
  }

  /**
   The part of `#request` that runs before the transport is called: strip
   the path, resolve the options, build the headers.
   */
  function Prepare(client: Client, path: string, httpMethod: Method, payload: Payload,
                   requestOptions: Option<ClientOptions>): (r: Result<Prepared, ClientError>)
    ensures r.Failure? <==> !TruthyString(MergeOptions(client.options, requestOptions).apiToken)
    ensures r.Failure? ==> r.error == ConfigError(MissingTokenMessage)
    ensures r.Success? ==>
      var o := SetupOptions(MergeOptions(client.options, requestOptions)).value;
      && r.value.httpMethod == httpMethod
      && r.value.payload == payload
      && r.value.path == StripLeadingSlash(path)
      && r.value.headers == BuildHeaders(o.apiToken, client.userAgent)
      && HeaderValue(r.value.headers, AuthorizationHeader) == Some(BearerPrefix + o.apiToken)
      && (HeaderValue(r.value.headers, UserAgentHeader).Some? <==>
            client.userAgent.Some? && client.userAgent.value != "")
      && r.value.prefixUrl == o.baseUrl
      && r.value.timeout == o.timeout
      && r.value.retryLimit == o.retry
      && r.value.fetch == o.fetch
  {
    var stripped := StripLeadingSlash(path);
    match SetupOptions(MergeOptions(client.options, requestOptions))
    case Failure(e) => Failure(e)
    case Success(o) =>
      Success(Prepared(httpMethod, stripped, payload, BuildHeaders(o.apiToken, client.userAgent),
                       o.baseUrl, o.timeout, o.retry, o.fetch))
  }

  /**
   `#request`: prepare the call, hand it to `transport`, and convert an HTTP
   error into an `APIError` (using `parse` as the JSON parser on its body);
   every other thrown error passes through unchanged.
   */
  function Request<B>(client: Client, path: string, httpMethod: Method, payload: Payload,
                      requestOptions: Option<ClientOptions>,
                      transport: Prepared -> Outcome<B>,
                      parse: string -> Errors.JsonParse): (c: Call<B>)
    ensures c.sent.Some? <==> Prepare(client, path, httpMethod, payload, requestOptions).Success?
    ensures c.sent.None? ==> c.result == Failure(ConfigError(MissingTokenMessage))
    ensures c.sent.Some? ==> c.sent.value == Prepare(client, path, httpMethod, payload, requestOptions).value
    ensures c.sent.Some? && transport(c.sent.value).Delivered? ==>
              c.result == Success(transport(c.sent.value).body)
    ensures c.sent.Some? && transport(c.sent.value).Threw? && transport(c.sent.value).thrown.HttpThrown? ==>
              var t := transport(c.sent.value).thrown;
              c.result == Failure(Api(Errors.NewApiError(t.error, t.text, parse)))
    ensures c.sent.Some? && transport(c.sent.value).Threw? && !transport(c.sent.value).thrown.HttpThrown? ==>
              c.result == Failure(Rethrown(transport(c.sent.value).thrown))
  {
    match Prepare(client, path, httpMethod, payload, requestOptions)
    case Failure(e) => Call(Failure(e), None)
    case Success(prepared) =>
      var result :=
        match transport(prepared)
        case Delivered(body) => Success(body)
        case Threw(HttpThrown(error, text)) => Failure(Api(Errors.NewApiError(error, text, parse)))
        case Threw(other) => Failure(Rethrown(other));
      Call(result, Some(prepared))
  }

  /** `get`: a GET with optional search parameters; the decoded body is the result. */
  function Get<B>(client: Client, path: string, searchParams: Option<map<string, Param>>,
                  requestOptions: Option<ClientOptions>,
                  transport: Prepared -> Outcome<B>, parse: string -> Errors.JsonParse): (c: Call<B>)
    ensures c.sent.Some? ==> c.sent.value.httpMethod == GET && c.sent.value.payload == SearchParams(searchParams)
    ensures c.sent.Some? ==> Prepare(client, path, GET, SearchParams(searchParams), requestOptions) == Success(c.sent.value)
    ensures c.sent.Some? && transport(c.sent.value).Threw? ==>
              var t := transport(c.sent.value).thrown;
              c.result == Failure(if t.HttpThrown? then Api(Errors.NewApiError(t.error, t.text, parse)) else Rethrown(t))
    ensures c.sent.Some? ==> c.sent.value.path == StripLeadingSlash(path)
    ensures c.sent.Some? <==> TruthyString(MergeOptions(client.options, requestOptions).apiToken)
    ensures c.sent.None? ==> c.result == Failure(ConfigError(MissingTokenMessage))
    ensures c.sent.Some? && transport(c.sent.value).Delivered? ==> c.result == Success(transport(c.sent.value).body)
    ensures c.sent.Some? && transport(c.sent.value).Threw? ==>
              c.result.Failure? && (c.result.error.Api? <==> transport(c.sent.value).thrown.HttpThrown?)
  {
    Request(client, path, GET, SearchParams(searchParams), requestOptions, transport, parse)
  }

  /** `post`: a POST with an optional JSON body; the decoded body is the result. */
  function Post<B>(client: Client, path: string, json: Option<string>,
                   requestOptions: Option<ClientOptions>,
                   transport: Prepared -> Outcome<B>, parse: string -> Errors.JsonParse): (c: Call<B>)
    ensures c.sent.Some? ==> c.sent.value.httpMethod == POST && c.sent.value.payload == JsonBody(json)
    ensures c.sent.Some? ==> Prepare(client, path, POST, JsonBody(json), requestOptions) == Success(c.sent.value)
    ensures c.sent.Some? && transport(c.sent.value).Threw? ==>
              var t := transport(c.sent.value).thrown;
              c.result == Failure(if t.HttpThrown? then Api(Errors.NewApiError(t.error, t.text, parse)) else Rethrown(t))
    ensures c.sent.Some? ==> c.sent.value.path == StripLeadingSlash(path)
    ensures c.sent.Some? <==> TruthyString(MergeOptions(client.options, requestOptions).apiToken)
    ensures c.sent.None? ==> c.result == Failure(ConfigError(MissingTokenMessage))
    ensures c.sent.Some? && transport(c.sent.value).Delivered? ==> c.result == Success(transport(c.sent.value).body)
    ensures c.sent.Some? && transport(c.sent.value).Threw? ==>
              c.result.Failure? && (c.result.error.Api? <==> transport(c.sent.value).thrown.HttpThrown?)
  {
    Request(client, path, POST, JsonBody(json), requestOptions, transport, parse)
  }

  /** `delete`: a DELETE with an optional JSON body; the response body is discarded. */
  function Delete<B>(client: Client, path: string, json: Option<string>,
                     requestOptions: Option<ClientOptions>,
                     transport: Prepared -> Outcome<B>, parse: string -> Errors.JsonParse): (c: Call<()>)
    ensures c.sent == Request(client, path, DELETE, JsonBody(json), requestOptions, transport, parse).sent
    ensures c.sent.Some? ==> c.sent.value.httpMethod == DELETE && c.sent.value.payload == JsonBody(json)
    ensures c.sent.Some? <==> TruthyString(MergeOptions(client.options, requestOptions).apiToken)
    ensures c.sent.None? ==> c.result == Failure(ConfigError(MissingTokenMessage))
    ensures c.result.Success? <==> c.sent.Some? && transport(c.sent.value).Delivered?
    ensures c.result.Failure? ==>
      Request(client, path, DELETE, JsonBody(json), requestOptions, transport, parse).result == Failure(c.result.error)
  {
    var call := Request(client, path, DELETE, JsonBody(json), requestOptions, transport, parse);
    match call.result
    case Success(_) => Call(Success(()), call.sent)
    case Failure(e) => Call(Failure(e), call.sent)
  }

  /** A call without a usable token never reaches the transport, whatever the transport would do. */
  lemma MissingTokenSendsNothing<B>(client: Client, path: string, httpMethod: Method, payload: Payload,
                                    requestOptions: Option<ClientOptions>,
                                    transport: Prepared -> Outcome<B>, parse: string -> Errors.JsonParse)
    requires !TruthyString(MergeOptions(client.options, requestOptions).apiToken)
    ensures Request(client, path, httpMethod, payload, requestOptions, transport, parse)
              == Call(Failure(ConfigError(MissingTokenMessage)), None)
  {
  }

  /**
   A call fails with an `APIError` exactly when the transport threw an HTTP
   error, and then the error's status is that response's status.
   */
  lemma OnlyHttpErrorsBecomeApiErrors<B>(client: Client, path: string, httpMethod: Method, payload: Payload,
                                         requestOptions: Option<ClientOptions>,
                                         transport: Prepared -> Outcome<B>, parse: string -> Errors.JsonParse)
    ensures var c := Request(client, path, httpMethod, payload, requestOptions, transport, parse);
      (c.result.Failure? && c.result.error.Api?) <==>
        (c.sent.Some? && transport(c.sent.value).Threw? && transport(c.sent.value).thrown.HttpThrown?)
    ensures var c := Request(client, path, httpMethod, payload, requestOptions, transport, parse);
      c.result.Failure? && c.result.error.Api? ==>
        c.result.error.error.status == transport(c.sent.value).thrown.error.status
  {
  }

  /**
   A client built outside a browser sends its user agent on every call that
   reaches the transport; one built inside a browser never does.
   */
  lemma UserAgentFollowsEnvironment(options: Option<ClientOptions>, hasWindow: bool, hasNavigatorUserAgent: bool,
                                    version: string, path: string, httpMethod: Method, payload: Payload,
                                    requestOptions: Option<ClientOptions>)
    requires Prepare(NewClient(options, hasWindow, hasNavigatorUserAgent, version), path, httpMethod, payload,
                     requestOptions).Success?
    ensures var r := Prepare(NewClient(options, hasWindow, hasNavigatorUserAgent, version), path, httpMethod,
                             payload, requestOptions).value;
      HeaderValue(r.headers, UserAgentHeader).Some? <==> !(hasWindow && hasNavigatorUserAgent)
  {
  }

  /**
   `get` and `post` differ only in the method and in what they send: for the
   same client, path and per-call options, either both reach the transport or
   neither does, with the same path, headers, base URL, timeout, retry limit
   and fetch.
   */
  lemma GetAndPostShareTheRequest<B>(client: Client, path: string, searchParams: Option<map<string, Param>>,
                                     json: Option<string>, requestOptions: Option<ClientOptions>,
                                     transport: Prepared -> Outcome<B>, parse: string -> Errors.JsonParse)
    ensures var g := Get(client, path, searchParams, requestOptions, transport, parse);
      var p := Post(client, path, json, requestOptions, transport, parse);
      && (g.sent.Some? <==> p.sent.Some?)
      && (g.sent.Some? ==> g.sent.value == p.sent.value.(httpMethod := GET, payload := SearchParams(searchParams)))
  {
  }

  /**
   A DELETE and a POST with the same body send the same request apart from
   the method, and when neither is sent both fail with the same error.
   */
  lemma DeleteIsPostWithOtherMethod<B>(client: Client, path: string, json: Option<string>,
                                   requestOptions: Option<ClientOptions>,
                                   transport: Prepared -> Outcome<B>, parse: string -> Errors.JsonParse)
    ensures var d := Delete(client, path, json, requestOptions, transport, parse);
      var p := Post(client, path, json, requestOptions, transport, parse);
      && (d.sent.Some? <==> p.sent.Some?)
      && (d.sent.Some? ==> d.sent.value == p.sent.value.(httpMethod := DELETE))
      && (d.sent.None? ==> d.result == Failure(p.result.error))
  {
  }
}

=== FILE: common.dfy ===
/**
 Small value types shared by the client, error and pager models: an optional
 value, a success-or-error result, and the three states a property of a
 JavaScript options object can be in.
 */
module Common {

  /** An optional value. */
  datatype Option<+T> = None | Some(value: T) {

    /** The wrapped value, or `default` when there is none. */
    function GetOr(default: T): T {
      match this
      case Some(v) => v
      case None => default
    }
  }

  /** Either a value or the error that was raised instead of producing one. */
  datatype Result<+T, +E> = Success(value: T) | Failure(error: E)

  /**
   An optional property of a JavaScript object literal: the key is missing,
   the key is present with the value `undefined`, or the key holds a value.
   Reading the property yields `undefined` in the first two cases; object
   spread tells them apart (only a missing key lets the earlier object show
   through).
   */
  datatype Field<+T> = Absent | Undefined | Defined(value: T) {

    /** The value read from the property; `None` stands for `undefined`. */
    function Read(): Option<T> {
      match this
      case Defined(v) => Some(v)
      case _ => None
    }
  }

  /**
   The property that `{...base, ...over}` ends up holding: `over` wins
   whenever its key is present, even when it holds `undefined`.
   */
  function Spread<T>(base: Field<T>, over: Field<T>): (r: Field<T>)
    ensures over.Absent? ==> r == base
    ensures !over.Absent? ==> r == over
    ensures r.Read() == (if over.Absent? then base.Read() else over.Read())
  {
    if over.Absent? then base else over
  }

  /** A string property read in a boolean context: only a non-empty string is truthy. */
  predicate TruthyString(f: Field<string>) {
    f.Defined? && f.value != ""
  }
}

=== FILE: error.dfy ===
/**
 The `APIError` raised when a completed HTTP exchange fails: its message is
 the transport error's message, extended by what the response body says.
 */
module Errors {

  /** The discriminant name every `APIError` carries. */
  const ApiErrorName := "APIError"

  /** Separator placed between the transport's message and the detail taken from the body. */
  const Separator := ": "

  /**
   The transport's HTTP error, as far as `APIError` looks at it: the message
   the transport composed (status code, status text, method and URL) and the
   response's status code.
   */
  datatype HttpError = HttpError(message: string, status: int)

  /**
   What `JSON.parse(text)` followed by reading `.message` amounts to.
   `ParseFail`: something inside the `try` throws other than reading from
   `null`: the text is not JSON, or the truthy `message` cannot be rendered
   to a string (an object whose `toString` is not callable, say).
   `ParsedNull`: the text is `null`, so reading `.message` throws.
   `ParsedWithTruthyMessage`: the value has a truthy `message` property,
   rendered to a string by template interpolation without throwing.
   `ParsedOther`: any other value (no `message`, or a falsy one).
   */
  datatype JsonParse = ParseFail | ParsedNull | ParsedWithTruthyMessage(rendered: string) | ParsedOther

  /** The error raised for a failed response. */
  datatype ApiError = ApiError(name: string, message: string, status: int, cause: HttpError)

  /** The detail appended to the transport's message for a non-empty body `text`. */
  function Detail(text: string, parsed: JsonParse): string {
    match parsed
    case ParsedWithTruthyMessage(m) => m
    case _ => text
  }

  /**
   The message of an `APIError` built from `base` (the transport's message)
   and the body `text`; `parse` is the JSON parser, consulted only for a
   non-empty text.
   */
  function ComposeMessage(base: string, text: string, parse: string -> JsonParse): (message: string)
    ensures text == "" ==> message == base
    ensures text != "" && parse(text).ParsedWithTruthyMessage? ==>
              message == base + Separator + parse(text).rendered
    ensures text != "" && !parse(text).ParsedWithTruthyMessage? ==>
              message == base + Separator + text
    ensures base <= message
  {
    if text == "" then base
    else base + Separator + Detail(text, parse(text))
  }

  /** The `APIError` constructor. */
  function NewApiError(cause: HttpError, text: string, parse: string -> JsonParse): (e: ApiError)
    ensures e.status == cause.status
    ensures e.name == ApiErrorName
    ensures e.cause == cause
    ensures cause.message <= e.message
    ensures e.message == ComposeMessage(cause.message, text, parse)
  {
    ApiError(ApiErrorName, ComposeMessage(cause.message, text, parse), cause.status, cause)
  }

  /** The message is the transport's message unchanged exactly when the body is empty. */
  lemma MessageUnchangedIffEmptyText(cause: HttpError, text: string, parse: string -> JsonParse)
    ensures NewApiError(cause, text, parse).message == cause.message <==> text == ""
  {
  }

  /**
   Whatever the body says, the message splits back into the transport's
   message, the separator and the detail: the detail is the JSON `message`
   when there is a truthy one and otherwise the body text itself, so a body
   that is not such JSON can be read back out of the error.
   */
  lemma DetailRecoverable(cause: HttpError, text: string, parse: string -> JsonParse)
    requires text != ""
    ensures var m := NewApiError(cause, text, parse).message;
      && |m| >= |cause.message| + |Separator|
      && m[..|cause.message|] == cause.message
      && m[|cause.message|..|cause.message| + |Separator|] == Separator
      && m[|cause.message| + |Separator|..] == Detail(text, parse(text))
    ensures !parse(text).ParsedWithTruthyMessage? ==>
      NewApiError(cause, text, parse).message[|cause.message| + |Separator|..] == text
  {
  }

  /**
   Two bodies that are not JSON with a truthy `message` give different
   messages when they differ: the error never loses the body text.
   */
  lemma RawTextInjective(cause: HttpError, t1: string, t2: string, parse: string -> JsonParse)
    requires !parse(t1).ParsedWithTruthyMessage? && !parse(t2).ParsedWithTruthyMessage?
    requires t1 != t2
    ensures NewApiError(cause, t1, parse).message != NewApiError(cause, t2, parse).message
  {
    if t1 == "" {
      MessageUnchangedIffEmptyText(cause, t2, parse);
    } else if t2 == "" {
      MessageUnchangedIffEmptyText(cause, t1, parse);
    } else {
      DetailRecoverable(cause, t1, parse);
      DetailRecoverable(cause, t2, parse);
    }
  }

  /**
   A `null` body and a body that is not JSON at all are treated alike: the
   raw text is appended in both cases.
   */
  lemma NullBodyAppendsText(cause: HttpError, text: string, parse: string -> JsonParse)
    requires text != ""
    requires parse(text) == ParsedNull || parse(text) == ParseFail
    ensures NewApiError(cause, text, parse).message == cause.message + ": " + text
  {
  }
}

=== FILE: pager.dfy ===
/**
 The cursor pager: a record holding the listing's binding (client, path,
 per-call options), the pagination input and the "more pages may exist"
 flag, stepped by `GetNextPage` against a server oracle that maps the
 current input to a page, and flattened into items by `Iterate`.
 */
module Pagination {
  import opened Common
  import Requests
  import Errors

  const NoMorePagesMessage := "No more pages available."

  /**
   `Pager.Input`: the pagination parameters sent with every page request.
   `filters` holds the input object's other properties, which endpoints add
   to the type (`from`, `to` and `domain` for the per-domain statistics);
   its `limit` and `cursor` keys, if any, are ignored.
   */
  datatype Input = Input(limit: Option<int>, cursor: Option<string>, filters: map<string, Requests.Param>)

  /** `{}` */
  const EmptyInput := Input(None, None, map[])

  /** The `has_next` discriminant of the metadata, with `next_cursor` when there is a next page. */
  datatype Link = More(nextCursor: string) | Last

  /** `Pager.Metadata`, plus whatever endpoint-specific fields `extra` stands for. */
  datatype Metadata<X> = Metadata(link: Link, extra: X) {
    predicate HasNext() { link.More? }
  }

  /** `Pager.Page`: one server response. */
  datatype Page<T, X> = Page(result: seq<T>, meta: Metadata<X>)

  /** `Pager.Item`: one element of a page paired with that page's metadata. */
  datatype Item<T, X> = Item(value: T, meta: Metadata<X>)

  /** The state of one `Pager` instance. */
  datatype Pager = Pager(
    client: Requests.Client,
    path: string,
    input: Input,
    requestOptions: Option<Requests.ClientOptions>,
    nextPage: bool)

  /** Why `getNextPage` failed: it was called after the last page, or the fetch itself failed. */
  datatype PagerError<E> = NoMorePages | FetchFailed(cause: E) {

    /** The error's message; `describe` gives the message of a fetch failure. */
    function Message(describe: E -> string): string {
      match this
      case NoMorePages => NoMorePagesMessage
      case FetchFailed(cause) => describe(cause)
    }
  }

  /** One call of `getNextPage`: the pager afterwards, the outcome, and the input sent to the server, if any. */
  datatype Step<T, X, E> = Step(pager: Pager, result: Result<Page<T, X>, PagerError<E>>, requested: Option<Input>)

  /** How an iteration ended: all pages read, a fetch failed, or the page budget ran out. */
  datatype Status<E> = Finished | Failed(error: E) | OutOfFuel

  /** An iteration: the items yielded, the pages fetched, the inputs sent, and the pager afterwards. */
  datatype Iteration<T, X, E> = Iteration(
    items: seq<Item<T, X>>,
    pages: seq<Page<T, X>>,
    requests: seq<Input>,
    pager: Pager,
    status: Status<E>)

  /** The pager constructor; a missing input defaults to `{}`. */
  function NewPager(client: Requests.Client, path: string, input: Option<Input>,
                    requestOptions: Option<Requests.ClientOptions>): (p: Pager)
    ensures HasNextPage(p)
    ensures input.None? ==> p.input == EmptyInput
    ensures input.Some? ==> p.input == input.value
    ensures p.client == client && p.path == path && p.requestOptions == requestOptions
  {
    Pager(client, path, input.GetOr(EmptyInput), requestOptions, true)
  }

  /** `hasNextPage`: reads the flag and nothing else. */
  function HasNextPage(p: Pager): (b: bool)
    ensures b == p.nextPage
  {
    p.nextPage
  }

  /** The input for the request after a page with metadata `meta`: the cursor moves on when there is a next page. */
  function NextInput<X>(input: Input, meta: Metadata<X>): (next: Input)
    ensures next.limit == input.limit
    ensures next.filters == input.filters
    ensures meta.HasNext() ==> next.cursor == Some(meta.link.nextCursor)
    ensures !meta.HasNext() ==> next == input
  {
    if meta.HasNext() then input.(cursor := Some(meta.link.nextCursor)) else input
  }

  /**
   `getNextPage`: refuse once the flag is false; otherwise ask `server` for
   the page at the current input, copy `has_next` into the flag and, when
   there is a next page, its cursor into the input.
   */
  function GetNextPage<T, X, E>(p: Pager, server: Input -> Result<Page<T, X>, E>): (s: Step<T, X, E>)
    ensures !p.nextPage ==> s == Step(p, Failure(NoMorePages), None)
    ensures p.nextPage ==> s.requested == Some(p.input)
    ensures p.nextPage && server(p.input).Failure? ==>
              s.pager == p && s.result == Failure(FetchFailed(server(p.input).error))
    ensures p.nextPage && server(p.input).Success? ==>
              var page := server(p.input).value;
              && s.result == Success(page)
              && s.pager.nextPage == page.meta.HasNext()
              && s.pager.input == NextInput(p.input, page.meta)
    ensures s.pager.input.limit == p.input.limit && s.pager.input.filters == p.input.filters
    ensures s.pager.client == p.client && s.pager.path == p.path && s.pager.requestOptions == p.requestOptions
    ensures !p.nextPage ==> !s.pager.nextPage
  {
    if !p.nextPage then
      Step(p, Failure(NoMorePages), None)
    else
      match server(p.input)
      case Failure(e) => Step(p, Failure(FetchFailed(e)), Some(p.input))
      case Success(page) =>
        Step(p.(nextPage := page.meta.HasNext(), input := NextInput(p.input, page.meta)), Success(page), Some(p.input))
  }

  /** The items of one page, in order, each paired with the page's metadata. */
  function ItemsOf<T, X>(page: Page<T, X>): (items: seq<Item<T, X>>)
    ensures |items| == |page.result|
    ensures forall i :: 0 <= i < |items| ==> items[i] == Item(page.result[i], page.meta)
  {
    seq(|page.result|, i requires 0 <= i < |page.result| => Item(page.result[i], page.meta))
  }

  /** The items of a run of pages: page after page, each page's items in their order. */
  function Flatten<T, X>(pages: seq<Page<T, X>>): seq<Item<T, X>> {
    if |pages| == 0 then [] else ItemsOf(pages[0]) + Flatten(pages[1..])
  }

  /** The number of items a run of pages yields. */
  function TotalSize<T, X>(pages: seq<Page<T, X>>): nat {
    if |pages| == 0 then 0 else |pages[0].result| + TotalSize(pages[1..])
  }

  /** Flattening keeps every element and drops none: as many items as the pages hold. */
  lemma {:induction false} FlattenLength<T, X>(pages: seq<Page<T, X>>)
    ensures |Flatten(pages)| == TotalSize(pages)
  {
    if |pages| > 0 {
      FlattenLength(pages[1..]);
    }
  }

  /** Flattening distributes over concatenating runs of pages: earlier pages' items come first. */
  lemma {:induction false} FlattenAppend<T, X>(a: seq<Page<T, X>>, b: seq<Page<T, X>>)
    ensures Flatten(a + b) == Flatten(a) + Flatten(b)
  {
    if |a| == 0 {
      assert a + b == b;
    } else {
      assert (a + b)[1..] == a[1..] + b;
      FlattenAppend(a[1..], b);
    }
  }

  /**
   Every element of every page appears in the flattened items at its
   page's offset plus its own position, paired with its own page's metadata.
   */
  lemma {:induction false} FlattenAt<T, X>(pages: seq<Page<T, X>>, k: nat, i: nat)
    requires k < |pages| && i < |pages[k].result|
    ensures TotalSize(pages[..k]) + i < |Flatten(pages)|
    ensures Flatten(pages)[TotalSize(pages[..k]) + i] == Item(pages[k].result[i], pages[k].meta)
  {
    var head := ItemsOf(pages[0]);
    if k == 0 {
      assert pages[..0] == [];
    } else {
      assert pages[..k][1..] == pages[1..][..k - 1];
      assert pages[..k][0] == pages[0];
      FlattenAt(pages[1..], k - 1, i);
      assert Flatten(pages)[|head| + TotalSize(pages[1..][..k - 1]) + i]
          == Flatten(pages[1..])[TotalSize(pages[1..][..k - 1]) + i];
    }
  }

  /**
   The requests and pages of an iteration fit together: each page is the
   server's answer to its request, each request after the first is the
   previous one moved on by the previous page's metadata, and every page but
   the last announced a next page.
   */
  ghost predicate Threaded<T, X, E>(server: Input -> Result<Page<T, X>, E>, requests: seq<Input>, pages: seq<Page<T, X>>) {
    && |pages| <= |requests| <= |pages| + 1
    && (forall k :: 0 <= k < |pages| ==> server(requests[k]) == Success(pages[k]))
    && (forall k :: 0 <= k < |requests| - 1 ==> requests[k + 1] == NextInput(requests[k], pages[k].meta))
    && (forall k :: 0 <= k < |pages| - 1 ==> pages[k].meta.HasNext())
  }

  /** A fetched page in front of a threaded run keeps it threaded when the run starts where the page leads. */
  lemma ThreadedCons<T, X, E>(server: Input -> Result<Page<T, X>, E>, input: Input, page: Page<T, X>,
                              requests: seq<Input>, pages: seq<Page<T, X>>)
    requires Threaded(server, requests, pages)
    requires server(input) == Success(page)
    requires |requests| > 0 ==> requests[0] == NextInput(input, page.meta)
    requires |pages| > 0 ==> page.meta.HasNext()
    ensures Threaded(server, [input] + requests, [page] + pages)
  {
  }

  /**
   The iterator: while the flag is true, fetch a page and yield its items.
   `fuel` bounds the number of pages fetched; the source loops for as long
   as the server keeps announcing a next page.
   */
  function Iterate<T, X, E>(p: Pager, server: Input -> Result<Page<T, X>, E>, fuel: nat): (it: Iteration<T, X, E>)
    decreases fuel
    ensures !p.nextPage ==> it == Iteration([], [], [], p, Finished)
    ensures |it.pages| <= fuel
    ensures it.status.OutOfFuel? ==> |it.pages| == fuel
    ensures it.items == Flatten(it.pages)
    ensures |it.requests| == |it.pages| + (if it.status.Failed? then 1 else 0)
    ensures |it.requests| > 0 ==> it.requests[0] == p.input
    ensures Threaded(server, it.requests, it.pages)
    ensures it.status.Failed? ==> server(it.requests[|it.pages|]) == Failure(it.status.error)
    ensures it.status.Finished? <==> !it.pager.nextPage
    ensures it.status.Finished? && p.nextPage ==> |it.pages| > 0 && !it.pages[|it.pages| - 1].meta.HasNext()
    ensures !it.status.Finished? && |it.pages| > 0 ==> it.pages[|it.pages| - 1].meta.HasNext()
    ensures it.status.Failed? ==> it.pager.input == it.requests[|it.pages|]
    ensures !it.status.Failed? && |it.pages| > 0 ==>
              it.pager.input == NextInput(it.requests[|it.pages| - 1], it.pages[|it.pages| - 1].meta)
    ensures |it.pages| == 0 && !it.status.Failed? ==> it.pager.input == p.input
    ensures it.pager.input.limit == p.input.limit && it.pager.input.filters == p.input.filters
    ensures it.pager.client == p.client && it.pager.path == p.path && it.pager.requestOptions == p.requestOptions
  {
    if !p.nextPage then
      Iteration([], [], [], p, Finished)
    else if fuel == 0 then
      Iteration([], [], [], p, OutOfFuel)
    else
      var s := GetNextPage(p, server);
      match s.result
      case Failure(err) => Iteration([], [], [p.input], s.pager, Failed(err.cause))
      case Success(page) =>
        var rest := Iterate(s.pager, server, fuel - 1);
        ThreadedCons(server, p.input, page, rest.requests, rest.pages);
        Iteration(ItemsOf(page) + rest.items, [page] + rest.pages, [p.input] + rest.requests, rest.pager, rest.status)
  }

  /** `n` successive calls of `getNextPage`, whatever each returns. */
  function Drive<T, X, E>(p: Pager, server: Input -> Result<Page<T, X>, E>, n: nat): Pager
    decreases n
  {
    if n == 0 then p else Drive(GetNextPage(p, server).pager, server, n - 1)
  }

  /** Once the flag is false, no sequence of `getNextPage` calls changes anything. */
  lemma {:induction false} ExhaustedIsAbsorbing<T, X, E>(p: Pager, server: Input -> Result<Page<T, X>, E>, n: nat)
    requires !HasNextPage(p)
    ensures Drive(p, server, n) == p
    decreases n
  {
    if n > 0 {
      ExhaustedIsAbsorbing(p, server, n - 1);
    }
  }

  /** Driving `i` then `j` calls is driving `i + j` calls. */
  lemma {:induction false} DriveCompose<T, X, E>(p: Pager, server: Input -> Result<Page<T, X>, E>, i: nat, j: nat)
    ensures Drive(Drive(p, server, i), server, j) == Drive(p, server, i + j)
    decreases i
  {
    if i > 0 {
      DriveCompose(GetNextPage(p, server).pager, server, i - 1, j);
    }
  }

  /** The flag is monotone: once false after `i` calls it is false after any later number of calls. */
  lemma FlagMonotone<T, X, E>(p: Pager, server: Input -> Result<Page<T, X>, E>, i: nat, j: nat)
    requires i <= j
    requires !HasNextPage(Drive(p, server, i))
    ensures !HasNextPage(Drive(p, server, j))
  {
    DriveCompose(p, server, i, j - i);
    ExhaustedIsAbsorbing(Drive(p, server, i), server, j - i);
  }

  /**
   A finished iteration leaves the pager exhausted, so a further
   `getNextPage` fails without a request.
   */
  lemma FinishedThenGetNextPageFails<T, X, E>(p: Pager, server: Input -> Result<Page<T, X>, E>, fuel: nat)
    requires Iterate(p, server, fuel).status.Finished?
    ensures var s := GetNextPage(Iterate(p, server, fuel).pager, server);
      s.result == Failure(NoMorePages) && s.requested.None?
  {
  }

  /** `getList`: bind a new pager to the client, path and per-call options; nothing is fetched. */
  function GetList(client: Requests.Client, path: string, input: Option<Input>,
                   requestOptions: Option<Requests.ClientOptions>): (p: Pager)
    ensures HasNextPage(p)
    ensures p.input == input.GetOr(EmptyInput)
    ensures p.client == client && p.path == path && p.requestOptions == requestOptions
  {
    NewPager(client, path, input, requestOptions)
  }

  /**
   The search parameters for an input: its filters, then `limit` and
   `cursor`, each only when set.
   */
  function QueryOf(input: Input): (q: map<string, Requests.Param>)
    ensures "limit" in q <==> input.limit.Some?
    ensures "cursor" in q <==> input.cursor.Some?
    ensures input.limit.Some? ==> q["limit"] == Requests.Num(input.limit.value)
    ensures input.cursor.Some? ==> q["cursor"] == Requests.Str(input.cursor.value)
    ensures forall k :: k in input.filters && k != "limit" && k != "cursor" ==> k in q && q[k] == input.filters[k]
    ensures q.Keys <= input.filters.Keys + {"limit", "cursor"}
  {
    var base := input.filters - {"limit", "cursor"};
    var withLimit := if input.limit.Some? then base["limit" := Requests.Num(input.limit.value)] else base;
    if input.cursor.Some? then withLimit["cursor" := Requests.Str(input.cursor.value)] else withLimit
  }

  /** The server a pager talks to: `client.get(path, input, requestOptions)` over `transport`. */
  function ClientServer<T, X>(p: Pager, transport: Requests.Prepared -> Requests.Outcome<Page<T, X>>,
                              parse: string -> Errors.JsonParse): (server: Input -> Result<Page<T, X>, Requests.ClientError>)
    ensures forall input :: server(input) == Requests.Get(p.client, p.path, Some(QueryOf(input)), p.requestOptions, transport, parse).result
    ensures forall input ::
      !TruthyString(Requests.MergeOptions(p.client.options, p.requestOptions).apiToken) ==>
        server(input) == Failure(Requests.ConfigError(Requests.MissingTokenMessage))
    ensures forall input ::
      var prepared := Requests.Prepare(p.client, p.path, Requests.GET, Requests.SearchParams(Some(QueryOf(input))), p.requestOptions);
      prepared.Success? && transport(prepared.value).Delivered? ==>
        server(input) == Success(transport(prepared.value).body)
  {
    (input: Input) => Requests.Get(p.client, p.path, Some(QueryOf(input)), p.requestOptions, transport, parse).result
  }

  /**
   Over the client, the request that follows a page with a next page
   carries that page's `next_cursor` as its `cursor` parameter and the
   original `limit`, on the pager's path.
   */
  lemma NextRequestCarriesCursor<T, X>(p: Pager, transport: Requests.Prepared -> Requests.Outcome<Page<T, X>>,
                                       parse: string -> Errors.JsonParse)
    requires HasNextPage(p)
    requires GetNextPage(p, ClientServer(p, transport, parse)).result.Success?
    requires GetNextPage(p, ClientServer(p, transport, parse)).result.value.meta.HasNext()
    ensures var page := GetNextPage(p, ClientServer(p, transport, parse)).result.value;
      var next := GetNextPage(p, ClientServer(p, transport, parse)).pager;
      var call := Requests.Get(next.client, next.path, Some(QueryOf(next.input)), next.requestOptions, transport, parse);
      && call.sent.Some?
      && call.sent.value.path == Requests.StripLeadingSlash(p.path)
      && call.sent.value.payload.params.value["cursor"] == Requests.Str(page.meta.link.nextCursor)
      && ("limit" in call.sent.value.payload.params.value <==> p.input.limit.Some?)
  {
  }

  /** A listing of three pages linked by the cursors `cursor1` and `cursor2`; any other cursor is refused. */
  function ThreePageServer(): Input -> Result<Page<int, ()>, int> {
    (input: Input) =>
      if input.cursor == None then Success(Page([1, 2, 3], Metadata(More("cursor1"), ())))
      else if input.cursor == Some("cursor1") then Success(Page([4, 5, 6], Metadata(More("cursor2"), ())))
      else if input.cursor == Some("cursor2") then Success(Page([7, 8, 9], Metadata(Last, ())))
      else Failure(400)
  }

  /**
   Paging through the three-page listing: the flag stays true after the
   first two pages and turns false after the third, and a fourth call fails.
   */
  lemma ThreePagesStepByStep(client: Requests.Client)
    ensures var p0 := NewPager(client, "/pager", None, None);
      var s1 := GetNextPage(p0, ThreePageServer());
      var s2 := GetNextPage(s1.pager, ThreePageServer());
      var s3 := GetNextPage(s2.pager, ThreePageServer());
      var s4 := GetNextPage(s3.pager, ThreePageServer());
      && s1.result == Success(Page([1, 2, 3], Metadata(More("cursor1"), ()))) && HasNextPage(s1.pager)
      && s2.result == Success(Page([4, 5, 6], Metadata(More("cursor2"), ()))) && HasNextPage(s2.pager)
      && s3.result == Success(Page([7, 8, 9], Metadata(Last, ()))) && !HasNextPage(s3.pager)
      && s4.result == Failure(NoMorePages) && s4.requested.None?
      && s4.result.error.Message((e: int) => "") == "No more pages available."
  {
  }

  /**
   Iterating the three-page listing yields the nine values in order, the
   first six paired with a metadata that announces the next cursor.
   */
  lemma ThreePagesYieldNineItems(client: Requests.Client, fuel: nat)
    requires fuel >= 3
    ensures var it := Iterate(NewPager(client, "/pager", None, None), ThreePageServer(), fuel);
      && it.status.Finished?
      && !HasNextPage(it.pager)
      && it.requests == [EmptyInput, Input(None, Some("cursor1"), map[]), Input(None, Some("cursor2"), map[])]
      && |it.items| == 9
      && (forall i :: 0 <= i < 9 ==> it.items[i].value == i + 1)
      && (forall i :: 0 <= i < 9 ==>
            it.items[i].meta == Metadata(if i < 3 then More("cursor1") else if i < 6 then More("cursor2") else Last, ()))
  {
    var page1 := Page([1, 2, 3], Metadata(More("cursor1"), ()));
    var page2 := Page([4, 5, 6], Metadata(More("cursor2"), ()));
    var page3 := Page([7, 8, 9], Metadata(Last, ()));
    ThreePagesRun(client, fuel);
    ThreePagesItems(page1, page2, page3);
  }

  /** The whole run over the three-page listing, as one value. */
  lemma ThreePagesRun(client: Requests.Client, fuel: nat)
    requires fuel >= 3
    ensures var p0 := NewPager(client, "/pager", None, None);
      var in1 := Input(None, Some("cursor1"), map[]);
      var in2 := Input(None, Some("cursor2"), map[]);
      var page1 := Page([1, 2, 3], Metadata(More("cursor1"), ()));
      var page2 := Page([4, 5, 6], Metadata(More("cursor2"), ()));
      var page3 := Page([7, 8, 9], Metadata(Last, ()));
      Iterate(p0, ThreePageServer(), fuel) ==
        Iteration(ItemsOf(page1) + (ItemsOf(page2) + ItemsOf(page3)), [page1, page2, page3],
                  [EmptyInput, in1, in2], p0.(input := in2, nextPage := false), Finished)
  {
    var server := ThreePageServer();
    var p0 := NewPager(client, "/pager", None, None);
    var page1 := Page([1, 2, 3], Metadata(More("cursor1"), ()));
    var page2 := Page([4, 5, 6], Metadata(More("cursor2"), ()));
    var page3 := Page([7, 8, 9], Metadata(Last, ()));
    var in1 := Input(None, Some("cursor1"), map[]);
    var in2 := Input(None, Some("cursor2"), map[]);
    var p1 := p0.(input := in1);
    var p2 := p0.(input := in2);
    var p3 := p0.(input := in2, nextPage := false);
    IterateFetches(p2, server, fuel - 2, page3);
    assert Iterate(p3, server, fuel - 3) == Iteration([], [], [], p3, Finished);
    IterateFetches(p1, server, fuel - 1, page2);
    IterateFetches(p0, server, fuel, page1);
    assert ItemsOf(page3) + [] == ItemsOf(page3);
    assert [page3] + [] == [page3];
    assert [in2] + [] == [in2];
  }

  /** One iteration step that fetches `page`: its items, page and request come first, then the rest of the run. */
  lemma IterateFetches<T, X, E>(p: Pager, server: Input -> Result<Page<T, X>, E>, fuel: nat, page: Page<T, X>)
    requires p.nextPage && fuel > 0 && server(p.input) == Success(page)
    ensures var rest := Iterate(p.(nextPage := page.meta.HasNext(), input := NextInput(p.input, page.meta)), server, fuel - 1);
      Iterate(p, server, fuel) ==
        Iteration(ItemsOf(page) + rest.items, [page] + rest.pages, [p.input] + rest.requests, rest.pager, rest.status)
  {
  }

  /** The items of three three-item pages, index by index. */
  lemma ThreePagesItems<X>(page1: Page<int, X>, page2: Page<int, X>, page3: Page<int, X>)
    requires page1.result == [1, 2, 3] && page2.result == [4, 5, 6] && page3.result == [7, 8, 9]
    ensures var items := ItemsOf(page1) + (ItemsOf(page2) + ItemsOf(page3));
      && |items| == 9
      && (forall i :: 0 <= i < 9 ==> items[i].value == i + 1)
      && (forall i :: 0 <= i < 9 ==>
            items[i].meta == if i < 3 then page1.meta else if i < 6 then page2.meta else page3.meta)
  {
  }

  /** A listing whose only page is empty and last. */
  function EmptyServer(): Input -> Result<Page<int, ()>, int> {
    (input: Input) => Success(Page([], Metadata(Last, ())))
  }

  /** Iterating a listing whose only page is empty yields nothing, and the pager ends exhausted. */
  lemma EmptyListingYieldsNothing(client: Requests.Client, fuel: nat)
    requires fuel >= 1
    ensures var it := Iterate(NewPager(client, "/empty", None, None), EmptyServer(), fuel);
      && it.status.Finished?
      && it.items == []
      && |it.pages| == 1
      && !HasNextPage(it.pager)
  {
  }

  /**
   The pager as the source writes it keeps a reference to the caller's
   input object instead of a copy. `objects` holds the input objects the
   caller owns, by reference; `getNextPage` writes the cursor through the
   reference, so every holder of that object sees it.
   */
  datatype SharedPager = SharedPager(client: Requests.Client, path: string, inputRef: nat,
                                     requestOptions: Option<Requests.ClientOptions>, nextPage: bool)

  datatype SharedStep<T, X, E> = SharedStep(pager: SharedPager, objects: map<nat, Input>,
                                            result: Result<Page<T, X>, PagerError<E>>)

  /** The value-semantics pager a shared pager behaves like for one call. */
  function Snapshot(p: SharedPager, objects: map<nat, Input>): Pager
    requires p.inputRef in objects
  {
    Pager(p.client, p.path, objects[p.inputRef], p.requestOptions, p.nextPage)
  }

  /** `getNextPage` as written: the same step, with the cursor stored into the caller's object. */
  function SharedGetNextPage<T, X, E>(p: SharedPager, objects: map<nat, Input>,
                                      server: Input -> Result<Page<T, X>, E>): (s: SharedStep<T, X, E>)
    requires p.inputRef in objects
    ensures s.objects.Keys == objects.Keys
    ensures forall r :: r in objects && r != p.inputRef ==> s.objects[r] == objects[r]
    ensures s.result == GetNextPage(Snapshot(p, objects), server).result
    ensures s.objects[p.inputRef] == GetNextPage(Snapshot(p, objects), server).pager.input
    ensures s.pager.nextPage == GetNextPage(Snapshot(p, objects), server).pager.nextPage
    ensures s.pager.inputRef == p.inputRef
    ensures s.pager == p.(nextPage := GetNextPage(Snapshot(p, objects), server).pager.nextPage)
  {
    var step := GetNextPage(Snapshot(p, objects), server);
    SharedStep(p.(nextPage := step.pager.nextPage), objects[p.inputRef := step.pager.input], step.result)
  }

  /**
   Two listings built from the same input object: after the first one has
   read a page, the second one starts at the first one's cursor and misses
   the first page.
   */
  lemma SharedInputSkipsFirstPage(client: Requests.Client)
    ensures var objects := map[0 := Input(Some(10), None, map[])];
      var first := SharedPager(client, "/pager", 0, None, true);
      var s := SharedGetNextPage(first, objects, ThreePageServer());
      var second := SharedPager(client, "/pager", 0, None, true);
      var t := SharedGetNextPage(second, s.objects, ThreePageServer());
      && s.objects[0] == Input(Some(10), Some("cursor1"), map[])
      && t.result == Success(Page([4, 5, 6], Metadata(More("cursor2"), ())))
  {
  }

  /**
   With the pager owning a copy of its input, the same two listings behave
   independently: the first one moves on to `cursor1` while the second one
   still starts at the first page.
   */
  lemma CopiedInputKeepsFirstPage(client: Requests.Client)
    ensures var input := Input(Some(10), None, map[]);
      var first := GetList(client, "/pager", Some(input), None);
      var s := GetNextPage(first, ThreePageServer());
      var second := GetList(client, "/pager", Some(input), None);
      var t := GetNextPage(second, ThreePageServer());
      && s.pager.input == Input(Some(10), Some("cursor1"), map[])
      && t.requested == Some(input)
      && t.result == Success(Page([1, 2, 3], Metadata(More("cursor1"), ())))
  {
  }
}
